=== FILE: README.md ===
# Seating lookup and spreadsheet ingestion, modelled in Dafny

The student seating application has two halves:

- **The front end** (`SeatingApp`, in `seating_app.dfy`). A student enters a registration number and picks a session. `lookup` asks the back end for that student's seating record and leaves behind one of two things:
  - an error banner;
  - a sanitised record, shown on a result card with fallbacks for missing fields.
- **The spreadsheet worker** (`ExcelWorker`, in `excel_worker.dfy`). It reads an uploaded spreadsheet and resolves header variants such as "Registration Number" or "Hall" to standard column names. Then it:
  - refuses an upload that lacks a required column;
  - cleans every row;
  - upserts each row into a `students` table keyed by `(reg_no, date, session)`;
  - counts the upserts.

`Text` (`text.dfy`) holds the string operations both halves use:

- trimming, with JavaScript's and Python's whitespace sets spelled out;
- ASCII case mapping;
- decimal rendering of a status code.

`Wrappers` (`wrappers.dfy`) holds `Option` and `Result`.

## How the model is built

**Front end**
- `sanitize` and the display fallbacks are functions.
- `lookup` is a method of the class `App`, which holds `reg`, `session`, `result`, `err` and `loading`.
  - The method clears the error and the result, then leaves through the same exits as the source.
  - The network is replaced by a `Response` parameter: a status with a parsed or unparseable body, or a thrown exception. The method returns the request it would issue.
  - Its contract ties the final state to `Outcome`, a function specified independently.

**Worker**
- The search behind `find_column` is `FindBy`.
  - It takes the key function as a parameter, and `FindColumn` applies it to the header key `HeaderKey` (lower-case, strip, spaces to underscores).
  - `FindByNone` and `FindByFirstMatch` prove the first-match order for any key function. `FindColumnNone` and `FindColumnFirstMatch` state it for the header key.
- Filling `column_rename` is a loop (`BuildRename`), proved equal to the fold `RenameMap`. It takes the same key function; `Run` passes the header key.
- The insertion loop (`InsertRows`) updates a `Database` object in place. Each row goes through `Database.InsertOrReplace`.
  - It is given the row cleaning as a function of the row; `Run` passes `Cleaner`, which is `CleanRow` for the upload's columns, override date and date conversion.
  - The loop is proved equal to the fold `Ingest` over the row outcomes. `IngestSummary`, `UpsertAllKeyed` and `UpsertAllUnkeyed` say what that fold does to the table and the counter.

**Behaviour of the code that the model keeps, and states as lemmas**
- **Whitespace-only registration number.** The empty-input check tests the untrimmed `reg`, but the request sends `reg.trim()`. So a whitespace-only number is not refused locally: a request with an empty `regno` goes out (`WhitespaceInputIsSent`).
- **NULL keys.** The primary key of `students` is `(reg_no, date, session)`, but `date` and `session` may be NULL. In an ordinary SQLite table, NULLs in a primary-key column never conflict with each other. So a row with a NULL date or session is always added and never replaces anything. The table is therefore modelled as a map for rows with a full key plus a list for the rest.
- **Empty `reg_no` cell.** `reg_no` goes through `str(...)` with no NaN check. An empty cell becomes the registration number `"nan"` and is written, not skipped (`NanRegNoIsWritten`).
- **Date before skip.** The row date is worked out before the empty-`reg_no` test. A date that fails to convert is therefore reported even for a row that would have been skipped (`DateFailureBeatsSkip`).

## Model

| member | source | states |
|---|---|---|
| Text.Strip | frontend/src/SeatingArrangementApp.jsx:15 | The result is the slice that starts after the leading whitespace run. Everything cut off at either end is whitespace. The result neither starts nor ends with whitespace. |
| Text.StripBordered | backend/excel_worker.py:92 | Stripping a string with no whitespace at either end leaves it unchanged. |
| Text.StripIdempotent | frontend/src/SeatingArrangementApp.jsx:15 | Stripping twice is stripping once. |
| Text.StripAllWhitespace | frontend/src/SeatingArrangementApp.jsx:15-16 | A string made only of whitespace strips to the empty string. |
| Text.Lower | frontend/src/SeatingArrangementApp.jsx:17 | Lower-casing keeps the length and lowers each character in place. |
| Text.Upper | backend/excel_worker.py:97 | Upper-casing keeps the length and uppers each character in place. |
| Text.ReplaceChar | backend/excel_worker.py:34 | Keeps the length. Every occurrence of the character, and nothing else, is replaced. |
| Text.Join | backend/excel_worker.py:56 | `", ".join`: one part is itself. With more parts, the result starts with the first part and the separator, and no part is longer than the result. How it sits in the error text is stated by `ExcelWorker.MissingColumnsText`. |
| Text.NatToString | frontend/src/SeatingArrangementApp.jsx:48 | Renders a status as digits only, with no leading zero. Reading the digits back gives the status. |
| SeatingApp.Sanitize | frontend/src/SeatingArrangementApp.jsx:13-20 | Null stays null. The result is null exactly when the trimmed value is empty or lower-cases to `nan`, `none`, `null` or `nan.0`. Otherwise the result is the trimmed value with its case unchanged: non-empty, with no whitespace at either end, and not a placeholder. |
| SeatingApp.SanitizeKept | frontend/src/SeatingArrangementApp.jsx:15-19 | A value that is already non-empty, trimmed and not a placeholder passes through unchanged. |
| SeatingApp.SanitizeIdempotent | frontend/src/SeatingArrangementApp.jsx:13-20 | Sanitising twice is sanitising once. |
| SeatingApp.Normalize | frontend/src/SeatingArrangementApp.jsx:54-62 | Each of the seven fields of the cleaned record is `sanitize` of the body's field of the same JSON name (missing when the body lacks it). So every field is missing or a kept value. |
| SeatingApp.AsRawFields | frontend/src/SeatingArrangementApp.jsx:54-62 | Each of the seven JSON fields of a rendered record reads back as that record's field. |
| SeatingApp.NormalizeIdempotent | frontend/src/SeatingArrangementApp.jsx:54-62 | Cleaning a cleaned record again changes nothing. |
| SeatingApp.SeatDisplay | frontend/src/SeatingArrangementApp.jsx:281-283 | Shows the seat number if present. Otherwise, when the registration number and room are both present, shows the last two characters of the registration number (all of it if shorter). Otherwise shows a dash. Never blank. |
| SeatingApp.RoomDisplay | frontend/src/SeatingArrangementApp.jsx:295 | Shows the room, or hall "103" when the room is missing. Never blank. |
| SeatingApp.OrDash | frontend/src/SeatingArrangementApp.jsx:315-326 | The course code and the course title each show their value, or a dash when missing. Never blank. |
| SeatingApp.SessionDisplay | frontend/src/SeatingArrangementApp.jsx:367-369 | "FN" and "AN" are spelled out. Any other present session is shown as it is. A missing session shows "FN". Never blank. |
| SeatingApp.PlaceholderLength | frontend/src/SeatingArrangementApp.jsx:18 | Every placeholder token has three to five characters. |
| SeatingApp.SeatDisplayClean | frontend/src/SeatingArrangementApp.jsx:281-283 | The seat cell of a cleaned record is never a placeholder token, including when it falls back to the tail of the registration number. |
| SeatingApp.RoomDisplayClean | frontend/src/SeatingArrangementApp.jsx:295 | The room cell of a cleaned record is never a placeholder token. |
| SeatingApp.OrDashClean | frontend/src/SeatingArrangementApp.jsx:315-326 | The course-code and course-title cells of a cleaned record are never placeholder tokens. |
| SeatingApp.SessionDisplayClean | frontend/src/SeatingArrangementApp.jsx:367-369 | The session cell of a cleaned record is never a placeholder token. |
| SeatingApp.DisplaysAreClean | frontend/src/SeatingArrangementApp.jsx:53-62 | For any response body, the registration-number cell (when present), the seat, room, course-code, course-title and session cells of the result card never show `nan`, `none`, `null` or `nan.0` in any letter case. The date cell is not covered. |
| SeatingApp.Message | frontend/src/SeatingArrangementApp.jsx:30-66 | A server-error banner is the fixed prefix followed by exactly the failure's message. Empty input shows "Please enter your Registration Number". A 404 shows "Hall is not allocated for you". |
| SeatingApp.ServerMessageStart | frontend/src/SeatingArrangementApp.jsx:66 | Every server-error banner starts with its fixed prefix's first letter. |
| SeatingApp.MessageInjective | frontend/src/SeatingArrangementApp.jsx:30-66 | The empty-input, not-allocated and server-error banners never coincide. Two server-error banners coincide only for the same message. |
| SeatingApp.ServerErrorText | frontend/src/SeatingArrangementApp.jsx:46-48 | For a failing status, the message is the body's `error` field when it is non-empty. Otherwise it is "Server error (<status>)". An unparseable body counts as `{}`. |
| SeatingApp.Classify | frontend/src/SeatingArrangementApp.jsx:39-66 | A 404 is "not allocated" whatever the body. A thrown exception is a server error with the exception's message. Any other failing status is a server error whose message is `ServerErrorText` of the status and body. An OK status with an unparseable body is a server error with the parse error's message. An OK status with a parsed body is a success holding `Normalize` of that body. It is never the empty-input failure. |
| SeatingApp.RequestFor | frontend/src/SeatingArrangementApp.jsx:30-37 | No request exactly when the input is the empty string. Otherwise the request carries the trimmed registration number and the session. |
| SeatingApp.Outcome | frontend/src/SeatingArrangementApp.jsx:30-66 | Empty input fails locally. Any other input is classified by its response. |
| SeatingApp.WhitespaceInputIsSent | frontend/src/SeatingArrangementApp.jsx:30-37 | A whitespace-only registration number is not refused locally. It sends a request with an empty `regno`. |
| SeatingApp.App.constructor | frontend/src/SeatingArrangementApp.jsx:7-23 | Initial state: empty input, session "FN", no result, no error, not loading. |
| SeatingApp.App.Lookup | frontend/src/SeatingArrangementApp.jsx:25-70 | Issues exactly the request `RequestFor` gives (none on empty input). Ends with `loading` false. Ends with exactly one of error and result set. On a successful outcome, the result is the cleaned record. On a failing one, the error is that failure's banner. |
| SeatingApp.SanitizeBlankExamples | frontend/src/SeatingArrangementApp.jsx:14-16 | Null, empty and all-blank values sanitise to null. |
| SeatingApp.SanitizeNaNExample | frontend/src/SeatingArrangementApp.jsx:17-18 | "NaN" sanitises to null. |
| SeatingApp.ServerErrorExamples | frontend/src/SeatingArrangementApp.jsx:46-48 | A 500 with an `error` field shows that field. A 500 with an empty or unparseable body shows "Server error (500)". |
| ExcelWorker.HeaderKey | backend/excel_worker.py:34 | The key is no longer than the header, has no whitespace at either end, and has no space and no upper-case ASCII letter. |
| ExcelWorker.HeaderKeyIdempotent | backend/excel_worker.py:34 | The key of a key is the key itself. |
| ExcelWorker.FirstMatchFrom | backend/excel_worker.py:34-36 | Returns the first column at or after the start whose key equals the name's key. Returns none when no later column has that key. |
| ExcelWorker.FindBy | backend/excel_worker.py:32-37 | Whatever the search finds is one of the data-frame columns. |
| ExcelWorker.NoMatchShift | backend/excel_worker.py:33-37 | When the first variant matches no column, the first n variants match nothing exactly when the first n - 1 variants after it match nothing. |
| ExcelWorker.FindByNone | backend/excel_worker.py:32-37 | The search finds nothing exactly when no variant's key is the key of any column. |
| ExcelWorker.FindByFirstMatch | backend/excel_worker.py:32-37 | What the search finds is the first column, in column order, matching the first variant, in list order, that matches any column. |
| ExcelWorker.FindColumn | backend/excel_worker.py:32-37 | `find_column` is the search by the lower/strip/space-to-underscore header key. Whatever it finds is one of the columns. |
| ExcelWorker.FindColumnNone | backend/excel_worker.py:32-37 | `find_column` returns None exactly when no variant's header key is that of any column. |
| ExcelWorker.FindColumnFirstMatch | backend/excel_worker.py:32-37 | `find_column` returns the first column whose header key is that of the first variant matching any column. No earlier variant matches any column. No earlier column matches that variant. |
| ExcelWorker.FoundColumns | backend/excel_worker.py:41-42 | Gives one entry per standard name, in mapping order. |
| ExcelWorker.FoundColumnsAt | backend/excel_worker.py:41-42 | Entry i pairs the i-th standard name with the column the search finds for its variants. |
| ExcelWorker.BuildRename | backend/excel_worker.py:40-44 | The loop builds exactly the fold `RenameMap` over the found columns. Later standard names overwrite earlier ones. |
| ExcelWorker.RenameMap | backend/excel_worker.py:40-44 | The final `column_rename` after the entries in order. No entry renames the empty name or renames a column to itself. Where the entries come from and which one wins is proved in `RenameMapSound` and `RenameMapLastWins`. |
| ExcelWorker.RenameMapSound | backend/excel_worker.py:43-44 | Every rename entry comes from a standard name that found that column, differs from it, and is non-empty. No column is renamed to itself. |
| ExcelWorker.RenameMapLastWins | backend/excel_worker.py:41-44 | A column found for a standard name, and by no later one, is renamed to that standard name. |
| ExcelWorker.RenameColumns | backend/excel_worker.py:47-48 | Keeps the number of columns. Headers in the rename map take their standard name. All other headers are kept. |
| ExcelWorker.UnmatchedHeaderKept | backend/excel_worker.py:40-48 | A header that the search finds for no standard name keeps its name after renaming. |
| ExcelWorker.Rank | backend/excel_worker.py:53 | Gives the position of the first occurrence of an element of the list. |
| ExcelWorker.Absent | backend/excel_worker.py:53 | Lists exactly the required names that are not columns. |
| ExcelWorker.RankInTail | backend/excel_worker.py:53 | In a list without repeats, an element of the tail is not the head, and its position in the whole list is one more than in the tail. |
| ExcelWorker.AbsentInOrder | backend/excel_worker.py:53 | For a list without repeats, the absent names come in list order. |
| ExcelWorker.RequiredDistinct | backend/excel_worker.py:50 | No required column is listed twice. |
| ExcelWorker.RequiredMember | backend/excel_worker.py:50 | The required list is exactly `reg_no`, `seat_no`, `room`, `course_code`, `course_title` and `session`. |
| ExcelWorker.MissingColumns | backend/excel_worker.py:50-53 | Lists exactly the required columns the renamed frame lacks, in required-list order. |
| ExcelWorker.MissingColumnsText | backend/excel_worker.py:56 | The error text starts with "Missing required columns: " followed by the missing names joined by ", ", and what follows them is exactly the hint ". Expected columns are: …". |
| ExcelWorker.MissingColumnsTextDetermines | backend/excel_worker.py:56 | Two equal error texts carry the same joined list of names. |
| ExcelWorker.MissingColumnsEmpty | backend/excel_worker.py:50-54 | `date` is never reported missing. Nothing is missing exactly when all six required columns are present. |
| ExcelWorker.Field | backend/excel_worker.py:84-97 | A row has a value under a name exactly when the frame has that column. The value is the row's cell at that column's position, or an empty cell past the end of a short row. |
| ExcelWorker.RowDate | backend/excel_worker.py:82-89 | Uses the override date if it is a non-empty string. Otherwise uses the converted `date` cell when the column exists and the cell is not empty; a failed conversion is a failure. Otherwise the date is NULL. |
| ExcelWorker.CleanCell | backend/excel_worker.py:93-96 | An empty cell stays NULL. Any other cell becomes the cell's own text, stripped, with no whitespace at either end. |
| ExcelWorker.CleanSession | backend/excel_worker.py:97 | An empty cell stays NULL. Any other cell becomes the cell's own text, stripped and upper-cased, with no lower-case ASCII letter left. |
| ExcelWorker.RowRegNo | backend/excel_worker.py:92 | A non-empty cell gives its own text, stripped. An empty cell gives "nan". The result has no whitespace at either end. |
| ExcelWorker.CleanRow | backend/excel_worker.py:80-100 | A frame lacking a required column makes every row fail. A written row has a non-empty registration number. The full case analysis is in `CleanRowOutcome`. |
| ExcelWorker.CleanRowOutcome | backend/excel_worker.py:80-100 | A row is skipped exactly when its date resolves, the required columns exist and its stripped `reg_no` is empty. With the columns present, a failure is a date failure. A written row carries the stripped, non-empty `reg_no`, the resolved date and every cleaned field. |
| ExcelWorker.NanRegNoIsWritten | backend/excel_worker.py:92-100 | An empty `reg_no` cell is written as registration number "nan", not skipped. |
| ExcelWorker.DateFailureBeatsSkip | backend/excel_worker.py:82-100 | A date that fails to convert is the row's failure, even when the row would have been skipped. |
| ExcelWorker.Upsert | backend/excel_worker.py:65-105 | A row with a full key replaces whatever row had that key. A row with a NULL key part is added. The table's key invariant is kept. That every other key is left alone is stated by `UpsertKeepsOtherKeys`. |
| ExcelWorker.UpsertKeepsOtherKeys | backend/excel_worker.py:102-105 | An upsert leaves every key other than the row's own as it was: present or absent as before, with the same row. |
| ExcelWorker.Database.constructor | backend/excel_worker.py:61-75 | Opens the table as given, with its key invariant. |
| ExcelWorker.Database.InsertOrReplace | backend/excel_worker.py:102-105 | The stored table becomes `Upsert` of the old table and the row. The invariant is kept. |
| ExcelWorker.Step | backend/excel_worker.py:99-109 | The whole new loop state. A skipped row leaves it unchanged. A written row is upserted into the table and counted. A failing row leaves the table and the counter alone and appends an error numbered one more than the rows inserted so far, with the row's reason. |
| ExcelWorker.Ingest | backend/excel_worker.py:78-109 | Upserts and errors together never outnumber the rows. Every error is numbered between 1 and one more than the final count. |
| ExcelWorker.Cleaner | backend/excel_worker.py:80-100 | The cleaning of one upload, as a function of the row: on every row it is the row's `CleanRow`. |
| ExcelWorker.Outcomes | backend/excel_worker.py:79-100 | Gives one outcome per row. |
| ExcelWorker.OutcomesAt | backend/excel_worker.py:79-100 | The outcome of row i is the cleaning of row i. |
| ExcelWorker.IngestStep | backend/excel_worker.py:79-109 | Processing one more row is one more step of the fold, on that row's cleaning. |
| ExcelWorker.IngestSummary | backend/excel_worker.py:78-109 | Ingestion upserts exactly the written rows, in row order. `inserted` counts every upsert, replacements included. Every failing row is reported, in order, and processing goes on after it. |
| ExcelWorker.LastWithKey | backend/excel_worker.py:102-105 | Gives a written row with the key that no later row with the same key follows, or none when no row has that key. |
| ExcelWorker.UpsertAllKeyed | backend/excel_worker.py:102-106 | After ingestion, each full key holds the last row written with it. Keys no row was written with keep their old rows. |
| ExcelWorker.UpsertAllUnkeyed | backend/excel_worker.py:65-105 | Rows with a NULL key part are all kept, added in order after the existing ones. |
| ExcelWorker.InsertRows | backend/excel_worker.py:78-109 | The loop cleans each row, upserts it unless it is skipped or fails, and counts the upserts. The final table, the `inserted` counter and the reported errors are exactly the fold `Ingest` over the row outcomes. Each error is numbered one more than the rows inserted before it. |
| ExcelWorker.OverrideArgument | backend/excel_worker.py:14 | The override date is present exactly when there is a third argument after the script name, and then it is that argument. |
| ExcelWorker.ErrorLines | backend/excel_worker.py:108 | Gives one error line per failing row, in order. |
| ExcelWorker.Run | backend/excel_worker.py:7-113 | With fewer than two arguments after the script name: only the usage error, and the table is untouched. With a required column missing after renaming: only that error, carrying the text `MissingColumnsText` gives for the missing columns, and the table is untouched. Otherwise: the rows are ingested, one error line per failing row, then the count. |

## Left out

- The `fetch` call, `async`/`await` and JSON parsing are not modelled. A response is a status with a parsed body, an unparseable body, or a thrown exception. A JSON `null` body and field values that are not strings are not modelled: a field is either absent or already converted to text.
- `encodeURIComponent`: the request carries the trimmed registration number and the session as strings. Percent-encoding them (section 2.1 of RFC 3986) is not modelled.
- React state hooks, JSX markup, styles, the upload modal and button disabling are user-interface code. `Upload.jsx` is not part of this model.
- The date cell of the result card (`toLocaleDateString` with the `en-IN` locale) is left out, because it depends on locale and time zone.
- The code has no guard against responses arriving out of order. The model has none either: each `Lookup` call handles one response.
- Case mapping is ASCII only. JavaScript's `toLowerCase` and Python's `lower`/`upper` map the whole of Unicode. For the placeholder tokens and the header variants this changes nothing. The only non-ASCII characters that lower-case into ASCII are the Kelvin sign, which becomes `k`, and capital I with dot above, which becomes `i` followed by a combining dot U+0307. No token or variant contains `k`, and none contains U+0307, so neither character can lower-case into one of them.
- SeatingApp.SeatDisplay: `slice(-2)` counts UTF-16 code units, and the model counts characters. These differ only when a surrogate pair is among the last two.
- ExcelWorker.CleanSession: upper-cases ASCII letters only. Python's `upper` on non-ASCII text is not modelled.
- `pd.read_excel` is not modelled. A spreadsheet is a `Frame` of header names and rows of text cells, with `None` for an empty (NaN) cell; a short row reads as NaN past its end. Non-string headers are not modelled.
- `pd.to_datetime(...).strftime('%d.%m.%Y')` is the parameter `formatDate`, which yields a formatted date or an error message.
- Duplicate header labels are left out. This includes two headers renamed to the same standard name. The model reads the first such column, where pandas would hand back several values at once.
- SQLite I/O is not modelled: connecting, `CREATE TABLE`, commit and close, and the `timestamp` column's default. The table is the keyed-upsert abstraction above. Errors raised by the insert statement itself are not modelled. The only row failures are a date that fails to convert and a missing column.
- The text of a row failure is the reason `formatDate` gives, or the quoted column name of a `KeyError`. Python's exact `str(e)` for other exceptions is not modelled.
- Command-line parsing is reduced to the argument list: the override date is its fourth element. The file paths are not modelled. Printing JSON is not modelled: the output is a list of `Output` values.
- The outer `try`/`except` around `main` is not modelled. It catches failures to read the spreadsheet or open the database.

=== FILE: excel_worker.dfy ===
/**
 * The spreadsheet worker: resolving header variants to the standard column
 * names, the required-column check, per-row cleaning and skipping, and the
 * keyed `INSERT OR REPLACE` into the students table with its `inserted`
 * counter.
 */
module ExcelWorker {
  import opened Wrappers
  import opened Text

  // ---------------------------------------------------------------------------
  // Header resolution
  // ---------------------------------------------------------------------------

  /** A header as it is compared: lower-cased, stripped, spaces turned into underscores. */
  function HeaderKey(name: string): (k: string)
    ensures |k| <= |name|
    ensures Bordered(k, PyWhitespace)
    ensures forall i :: 0 <= i < |k| ==> k[i] != ' ' && !('A' <= k[i] <= 'Z')
  {
    ReplaceChar(Strip(Lower(name), PyWhitespace), ' ', '_')
  }

  /** A header key is its own key: comparing keys of keys compares the same thing. */
  lemma HeaderKeyIdempotent(name: string)
    ensures HeaderKey(HeaderKey(name)) == HeaderKey(name)
  {
    var k := HeaderKey(name);
    assert Lower(k) == k;
    StripBordered(k, PyWhitespace);
    assert ReplaceChar(k, ' ', '_') == k;
  }

  /**
   * The first column, at or after `from`, whose key equals the key of the
   * name: the first element of `[col for col in df.columns if ...]`.
   */
  function FirstMatchFrom(key: string -> string, columns: seq<string>, name: string, from: nat): (j: Option<nat>)
    requires from <= |columns|
    decreases |columns| - from
    ensures j.Some? ==> from <= j.value < |columns| && key(columns[j.value]) == key(name)
    ensures j.Some? ==> forall k :: from <= k < j.value ==> key(columns[k]) != key(name)
    ensures j.None? ==> forall k :: from <= k < |columns| ==> key(columns[k]) != key(name)
  {
    if from == |columns| then None
    else if key(columns[from]) == key(name) then Some(from)
    else FirstMatchFrom(key, columns, name, from + 1)
  }

  /** For each variant in turn, the first column with the variant's key; `None` once the variants run out. */
  function FindBy(key: string -> string, columns: seq<string>, variants: seq<string>): (r: Option<string>)
    ensures r.Some? ==> r.value in columns
    decreases |variants|
  {
    if variants == [] then None
    else
      match FirstMatchFrom(key, columns, variants[0], 0)
      case Some(k) => Some(columns[k])
      case None => FindBy(key, columns, variants[1..])
  }

  /** No column has the key of any of the first n variants. */
  predicate NoMatchBefore(key: string -> string, columns: seq<string>, variants: seq<string>, n: nat)
    requires n <= |variants|
  {
    forall i, k :: 0 <= i < n && 0 <= k < |columns| ==> key(columns[k]) != key(variants[i])
  }

  /**
   * Column k is the first column with the key of variant i, and no earlier
   * variant's key is the key of any column.
   */
  predicate FirstMatchAt(key: string -> string, columns: seq<string>, variants: seq<string>, i: nat, k: nat)
  {
    && i < |variants| && k < |columns|
    && key(columns[k]) == key(variants[i])
    && NoMatchBefore(key, columns, variants, i)
    && (forall k' :: 0 <= k' < k ==> key(columns[k']) != key(variants[i]))
  }

  /** When no column has the head variant's key, the first n variants match nothing exactly when the first n - 1 of the tail do. */
  lemma NoMatchShift(key: string -> string, columns: seq<string>, variants: seq<string>, n: nat)
    requires 0 < n <= |variants|
    requires forall k :: 0 <= k < |columns| ==> key(columns[k]) != key(variants[0])
    ensures NoMatchBefore(key, columns, variants[1..], n - 1) <==> NoMatchBefore(key, columns, variants, n)
  {
    var rest := variants[1..];
    if NoMatchBefore(key, columns, rest, n - 1) {
      forall i, k | 0 <= i < n && 0 <= k < |columns|
        ensures key(columns[k]) != key(variants[i])
      {
        if i > 0 {
          assert variants[i] == rest[i - 1];
        }
      }
    }
    if NoMatchBefore(key, columns, variants, n) {
      forall i, k | 0 <= i < n - 1 && 0 <= k < |columns|
        ensures key(columns[k]) != key(rest[i])
      {
        assert rest[i] == variants[i + 1];
      }
    }
  }

  /** The search finds nothing exactly when no variant's key is the key of any column. */
  lemma {:induction false} FindByNone(key: string -> string, columns: seq<string>, variants: seq<string>)
    ensures FindBy(key, columns, variants).None? <==> NoMatchBefore(key, columns, variants, |variants|)
    decreases |variants|
  {
    if variants != [] && FirstMatchFrom(key, columns, variants[0], 0).None? {
      FindByNone(key, columns, variants[1..]);
      NoMatchShift(key, columns, variants, |variants|);
    }
  }

  /** What the search finds is the first column matching the first variant that matches any column. */
  lemma {:induction false} FindByFirstMatch(key: string -> string, columns: seq<string>, variants: seq<string>)
    ensures FindBy(key, columns, variants).Some? ==>
      exists i: nat, k: nat :: FirstMatchAt(key, columns, variants, i, k) && FindBy(key, columns, variants) == Some(columns[k])
    decreases |variants|
  {
    if variants != [] {
      match FirstMatchFrom(key, columns, variants[0], 0)
      case Some(k) =>
        assert FirstMatchAt(key, columns, variants, 0, k);
      case None =>
        var rest := variants[1..];
        if FindBy(key, columns, rest).Some? {
          FindByFirstMatch(key, columns, rest);
          var i: nat, k: nat :| FirstMatchAt(key, columns, rest, i, k) && FindBy(key, columns, rest) == Some(columns[k]);
          NoMatchShift(key, columns, variants, i + 1);
          assert variants[i + 1] == rest[i];
          assert FirstMatchAt(key, columns, variants, i + 1, k);
        }
    }
  }

  /** `find_column(possible_names)`: the search by header key. */
  function FindColumn(columns: seq<string>, variants: seq<string>): (r: Option<string>)
    ensures r.Some? ==> r.value in columns
  {
    FindBy(HeaderKey, columns, variants)
  }

  /** `find_column` returns `None` exactly when no variant's header key is that of any column. */
  lemma FindColumnNone(columns: seq<string>, variants: seq<string>)
    ensures FindColumn(columns, variants).None? <==> NoMatchBefore(HeaderKey, columns, variants, |variants|)
  {
    FindByNone(HeaderKey, columns, variants);
  }

  /**
   * `find_column` tries the variants in list order and, for each, the
   * columns in column order: it returns the first column whose header key
   * is that of the first variant matching any column.
   */
  lemma FindColumnFirstMatch(columns: seq<string>, variants: seq<string>)
    ensures FindColumn(columns, variants).Some? ==>
      exists i: nat, k: nat :: FirstMatchAt(HeaderKey, columns, variants, i, k) && FindColumn(columns, variants) == Some(columns[k])
  {
    FindByFirstMatch(HeaderKey, columns, variants);
  }

  /** `column_mappings`: each standard name with its header variants, in dictionary order. */
  const ColumnMappings: seq<(string, seq<string>)> := [
    ("reg_no", ["reg_no", "regno", "registration_no", "registration number", "reg no", "register no"]),
    ("seat_no", ["seat_no", "seatno", "seat number", "seat no"]),
    ("room", ["room", "hall", "room_no", "room no", "hall no"]),
    ("course_code", ["course_code", "coursecode", "course code", "subject code"]),
    ("course_title", ["course_title", "coursetitle", "course title", "subject", "subject name"]),
    ("session", ["session", "exam session", "exam_session"]),
    ("date", ["date", "exam_date", "exam date"])
  ]

  /** The column found for each standard name, in mapping order: `find_column(variants)` for each entry, searching by `key`. */
  function FoundColumns(key: string -> string, columns: seq<string>, mappings: seq<(string, seq<string>)>): (entries: seq<(string, Option<string>)>)
    ensures |entries| == |mappings|
    decreases |mappings|
  {
    if mappings == [] then []
    else
      var (std, variants) := mappings[|mappings| - 1];
      FoundColumns(key, columns, mappings[..|mappings| - 1]) + [(std, FindBy(key, columns, variants))]
  }

  /** Entry i pairs the i-th standard name with the column found for its variants. */
  lemma {:induction false} FoundColumnsAt(key: string -> string, columns: seq<string>, mappings: seq<(string, seq<string>)>, i: nat)
    requires i < |mappings|
    ensures FoundColumns(key, columns, mappings)[i] == (mappings[i].0, FindBy(key, columns, mappings[i].1))
    decreases |mappings|
  {
    if i < |mappings| - 1 {
      FoundColumnsAt(key, columns, mappings[..|mappings| - 1], i);
    }
  }

  /** The entry (standard name, found column) renames column c: c was found, is non-empty and is not already the standard name. */
  predicate Renames(entry: (string, Option<string>), c: string)
  {
    entry.1 == Some(c) && c != "" && c != entry.0
  }

  /** `column_rename` after processing the given entries in order; a later entry for the same column overwrites an earlier one. */
  function RenameMap(entries: seq<(string, Option<string>)>): (rename: map<string, string>)
    ensures forall c :: c in rename ==> c != "" && rename[c] != c
    decreases |entries|
  {
    if entries == [] then map[]
    else
      var previous := RenameMap(entries[..|entries| - 1]);
      var (std, found) := entries[|entries| - 1];
      if found.Some? && found.value != "" && found.value != std then previous[found.value := std]
      else previous
  }

  /** The loop that fills `column_rename`, one standard name at a time, over the given mappings. */
  method BuildRename(key: string -> string, columns: seq<string>, mappings: seq<(string, seq<string>)>)
    returns (rename: map<string, string>)
    ensures rename == RenameMap(FoundColumns(key, columns, mappings))
  {
    rename := map[];
    for i := 0 to |mappings|
      invariant rename == RenameMap(FoundColumns(key, columns, mappings[..i]))
    {
      var std, variants := mappings[i].0, mappings[i].1;
      var found := FindBy(key, columns, variants);
      assert mappings[..i + 1][..i] == mappings[..i];
      if found.Some? && found.value != "" && found.value != std {
        rename := rename[found.value := std];
      }
    }
    assert mappings[..|mappings|] == mappings;
  }

  /**
   * Every entry of the rename map comes from an entry that renames that
   * column: the key was found for the standard name it maps to, and differs
   * from it.
   */
  lemma {:induction false} RenameMapSound(entries: seq<(string, Option<string>)>, c: string)
    requires c in RenameMap(entries)
    ensures RenameMap(entries)[c] != c
    ensures exists i :: 0 <= i < |entries| && Renames(entries[i], c) && RenameMap(entries)[c] == entries[i].0
    decreases |entries|
  {
    var init := entries[..|entries| - 1];
    if !Renames(entries[|entries| - 1], c) {
      RenameMapSound(init, c);
      var i :| 0 <= i < |init| && Renames(init[i], c) && RenameMap(init)[c] == init[i].0;
      assert entries[i] == init[i];
    }
  }

  /** A column renamed by some entry and by no later one is renamed to that entry's standard name. */
  lemma {:induction false} RenameMapLastWins(entries: seq<(string, Option<string>)>, i: nat, c: string)
    requires i < |entries| && Renames(entries[i], c)
    requires forall j :: i < j < |entries| ==> !Renames(entries[j], c)
    ensures c in RenameMap(entries) && RenameMap(entries)[c] == entries[i].0
    decreases |entries|
  {
    var init := entries[..|entries| - 1];
    if i < |entries| - 1 {
      assert !Renames(entries[|entries| - 1], c);
      assert init[i] == entries[i];
      RenameMapLastWins(init, i, c);
    }
  }

  /** `df.rename(columns=column_rename)`: each header in the map is replaced by its standard name. */
  function RenameColumns(columns: seq<string>, rename: map<string, string>): (r: seq<string>)
    ensures |r| == |columns|
    ensures forall k :: 0 <= k < |columns| && columns[k] in rename ==> r[k] == rename[columns[k]]
    ensures forall k :: 0 <= k < |columns| && columns[k] !in rename ==> r[k] == columns[k]
  {
    seq(|columns|, k requires 0 <= k < |columns| => if columns[k] in rename then rename[columns[k]] else columns[k])
  }

  /** The data-frame columns after renaming. */
  function RenamedColumns(columns: seq<string>): seq<string>
  {
    RenameColumns(columns, RenameMap(FoundColumns(HeaderKey, columns, ColumnMappings)))
  }

  /** A header that no standard name finds keeps its name. */
  lemma UnmatchedHeaderKept(key: string -> string, columns: seq<string>, mappings: seq<(string, seq<string>)>, k: nat)
    requires k < |columns|
    requires forall i :: 0 <= i < |mappings| ==> FindBy(key, columns, mappings[i].1) != Some(columns[k])
    ensures RenameColumns(columns, RenameMap(FoundColumns(key, columns, mappings)))[k] == columns[k]
  {
    var entries := FoundColumns(key, columns, mappings);
    if columns[k] in RenameMap(entries) {
      RenameMapSound(entries, columns[k]);
      var i :| 0 <= i < |entries| && Renames(entries[i], columns[k]) && RenameMap(entries)[columns[k]] == entries[i].0;
      FoundColumnsAt(key, columns, mappings, i);
    }
  }

  // ---------------------------------------------------------------------------
  // Required columns
  // ---------------------------------------------------------------------------

  /** The columns every upload must have after renaming; `date` is not among them. */
  const RequiredColumns: seq<string> := ["reg_no", "seat_no", "room", "course_code", "course_title", "session"]

  /** The position of the first occurrence of x in xs. */
  function Rank(xs: seq<string>, x: string): (n: nat)
    requires x in xs
    ensures n < |xs| && xs[n] == x
    ensures forall i :: 0 <= i < n ==> xs[i] != x
  {
    if xs[0] == x then 0 else 1 + Rank(xs[1..], x)
  }

  /** The elements of xs are pairwise different. */
  predicate Distinct(xs: seq<string>)
  {
    forall i, j :: 0 <= i < j < |xs| ==> xs[i] != xs[j]
  }

  /** The required names missing from the columns: exactly the absent ones. */
  function Absent(required: seq<string>, columns: seq<string>): (r: seq<string>)
    ensures forall x :: x in r <==> x in required && x !in columns
  {
    if required == [] then []
    else
      var rest := Absent(required[1..], columns);
      if required[0] in columns then rest else [required[0]] + rest
  }

  /** Every element of r comes from the list `order`, and r lists them in the order of that list. */
  predicate InOrderOf(r: seq<string>, order: seq<string>)
  {
    && (forall x :: x in r ==> x in order)
    && (forall i, j :: 0 <= i < j < |r| ==> Rank(order, r[i]) < Rank(order, r[j]))
  }

  /** In a list without repeats, an element of the tail is not the head and sits one place further on in the whole list. */
  lemma RankInTail(xs: seq<string>, x: string)
    requires Distinct(xs) && xs != [] && x in xs[1..]
    ensures x != xs[0] && Rank(xs, x) == 1 + Rank(xs[1..], x)
  {
    assert xs[Rank(xs[1..], x) + 1] == x;
  }

  /** The missing names come in the order of the required list. */
  lemma {:induction false} AbsentInOrder(required: seq<string>, columns: seq<string>)
    requires Distinct(required)
    ensures InOrderOf(Absent(required, columns), required)
  {
    if required != [] {
      var tail := required[1..];
      AbsentInOrder(tail, columns);
      var rest := Absent(tail, columns);
      var r := Absent(required, columns);
      forall i, j | 0 <= i < j < |r|
        ensures Rank(required, r[i]) < Rank(required, r[j])
      {
        var shift := if required[0] in columns then 0 else 1;
        assert r[j] == rest[j - shift];
        RankInTail(required, r[j]);
        if i >= shift {
          assert r[i] == rest[i - shift];
          RankInTail(required, r[i]);
        }
      }
    }
  }

  /** The six required fields are columns of the frame. */
  predicate HasRequired(columns: seq<string>)
  {
    && "reg_no" in columns && "seat_no" in columns && "room" in columns
    && "course_code" in columns && "course_title" in columns && "session" in columns
  }

  /** No required column is listed twice. */
  lemma RequiredDistinct()
    ensures Distinct(RequiredColumns)
  {
  }

  /** The required list names exactly the six required fields. */
  lemma RequiredMember(x: string)
    requires x in RequiredColumns
    ensures x == "reg_no" || x == "seat_no" || x == "room" || x == "course_code" || x == "course_title" || x == "session"
  {
    var k :| 0 <= k < |RequiredColumns| && RequiredColumns[k] == x;
  }

  /**
   * `missing_columns`: exactly the required columns the renamed frame lacks,
   * in required-list order.
   */
  function MissingColumns(columns: seq<string>): (r: seq<string>)
    ensures forall x :: x in r <==> x in RequiredColumns && x !in columns
    ensures InOrderOf(r, RequiredColumns)
  {
    RequiredDistinct();
    AbsentInOrder(RequiredColumns, columns);
    Absent(RequiredColumns, columns)
  }

  /** `date` is never reported missing, and nothing is missing exactly when all six required columns are present. */
  lemma MissingColumnsEmpty(columns: seq<string>)
    ensures "date" !in MissingColumns(columns)
    ensures MissingColumns(columns) == [] <==> HasRequired(columns)
  {
    var r := MissingColumns(columns);
    assert RequiredColumns[0] == "reg_no" && RequiredColumns[1] == "seat_no" && RequiredColumns[2] == "room";
    assert RequiredColumns[3] == "course_code" && RequiredColumns[4] == "course_title" && RequiredColumns[5] == "session";
    if r != [] {
      RequiredMember(r[0]);
    }
    if "date" in r {
      RequiredMember("date");
    }
  }

  const MissingPrefix: string := "Missing required columns: "
  const MissingHint: string :=
    ". Expected columns are: Registration Number, Seat Number, Room/Hall, Course Code, Course Title, Session"

  /** The error text reported for missing columns: the prefix, the names joined by commas, then the hint. */
  function MissingColumnsText(missing: seq<string>): (r: string)
    ensures MissingPrefix + Join(missing, ", ") <= r
    ensures r[|MissingPrefix + Join(missing, ", ")|..] == MissingHint
  {
    MissingPrefix + Join(missing, ", ") + MissingHint
  }

  /** The error text determines the joined list of missing names. */
  lemma MissingColumnsTextDetermines(a: seq<string>, b: seq<string>)
    requires MissingColumnsText(a) == MissingColumnsText(b)
    ensures Join(a, ", ") == Join(b, ", ")
  {
    var n := |MissingColumnsText(a)| - |MissingHint|;
    assert MissingColumnsText(a)[|MissingPrefix|..n] == Join(a, ", ");
    assert MissingColumnsText(b)[|MissingPrefix|..n] == Join(b, ", ");
  }

  // ---------------------------------------------------------------------------
  // Rows
  // ---------------------------------------------------------------------------

  /** A spreadsheet cell as text (Python's `str(value)`), or `None` for NaN (an empty cell). */
  type Cell = Option<string>

  /** The data frame: its header row and its data rows, cell by cell in column order. */
  datatype Frame = Frame(columns: seq<string>, rows: seq<seq<Cell>>)

  /**
   * `row[name]`: the cell under the first column with that label, `None` when
   * no column has it (a short row reads as NaN past its end).
   */
  function Field(columns: seq<string>, row: seq<Cell>, name: string): (r: Option<Cell>)
    ensures r.Some? <==> name in columns
    ensures name in columns ==>
      r == Some(if Rank(columns, name) < |row| then row[Rank(columns, name)] else None)
  {
    if name in columns then
      var k := Rank(columns, name);
      Some(if k < |row| then row[k] else None)
    else None
  }

  /** `str(value)`: a NaN cell reads as "nan". */
  function CellText(c: Cell): string
  {
    if c.Some? then c.value else "nan"
  }

  /** Python's `s.strip()`. */
  function PyStrip(s: string): string
  {
    Strip(s, PyWhitespace)
  }

  /** The row as stored. `date` and `session` may be `NULL`; so may the four descriptive fields. */
  datatype Student = Student(
    regNo: string,
    seatNo: Option<string>,
    room: Option<string>,
    courseCode: Option<string>,
    courseTitle: Option<string>,
    date: Option<string>,
    session: Option<string>)

  /** What happens to one row: it is skipped, written, or its processing raises an exception. */
  datatype RowOutcome = Skipped | Written(student: Student) | Failed(reason: string)

  /** The override date counts only when it is a non-empty string (Python truthiness). */
  predicate OverrideGiven(overrideDate: Option<string>)
  {
    overrideDate.Some? && overrideDate.value != ""
  }

  /**
   * The row's date: the override date if given; otherwise the row's `date`
   * cell converted by `formatDate` (parse and render as DD.MM.YYYY, which
   * may raise) when the column exists and the cell is not NaN; otherwise
   * `NULL`.
   */
  function RowDate(columns: seq<string>, row: seq<Cell>, overrideDate: Option<string>,
                   formatDate: string -> Result<string, string>): (r: Result<Option<string>, string>)
    ensures OverrideGiven(overrideDate) ==> r == Success(overrideDate)
    ensures !OverrideGiven(overrideDate) && Field(columns, row, "date").Some? && Field(columns, row, "date").value.Some? ==>
      var converted := formatDate(Field(columns, row, "date").value.value);
      r == if converted.Success? then Success(Some(converted.value)) else Failure(converted.error)
    ensures !OverrideGiven(overrideDate) && !(Field(columns, row, "date").Some? && Field(columns, row, "date").value.Some?) ==>
      r == Success(None)
  {
    if OverrideGiven(overrideDate) then Success(overrideDate)
    else
      match Field(columns, row, "date")
      case Some(Some(v)) =>
        (match formatDate(v)
         case Success(d) => Success(Some(d))
         case Failure(e) => Failure(e))
      case _ => Success(None)
  }

  /** A stripped optional field: NaN stays `NULL`, anything else is stripped. */
  function CleanCell(c: Cell): (r: Option<string>)
    ensures c.None? <==> r.None?
    ensures r.Some? ==> Bordered(r.value, PyWhitespace)
    ensures c.Some? ==> r == Some(PyStrip(c.value))
  {
    if c.Some? then Some(PyStrip(c.value)) else None
  }

  /** The session field is stripped and upper-cased. */
  function CleanSession(c: Cell): (r: Option<string>)
    ensures c.None? <==> r.None?
    ensures r.Some? ==> forall i :: 0 <= i < |r.value| ==> !('a' <= r.value[i] <= 'z')
    ensures c.Some? ==> r == Some(Upper(PyStrip(c.value)))
  {
    if c.Some? then Some(Upper(PyStrip(c.value))) else None
  }

  /** The registration number a row yields: `str(row['reg_no']).strip()`. */
  function RowRegNo(columns: seq<string>, row: seq<Cell>): (r: string)
    requires "reg_no" in columns
    ensures Bordered(r, PyWhitespace)
    ensures Field(columns, row, "reg_no").value.Some? ==> r == PyStrip(Field(columns, row, "reg_no").value.value)
    ensures Field(columns, row, "reg_no").value.None? ==> r == "nan"
  {
    PyStrip(CellText(Field(columns, row, "reg_no").value))
  }

  /**
   * The body of the per-row `try`: choose the date, clean the fields, and
   * skip the row when its stripped registration number is empty. A missing
   * column raises `KeyError`, whose text is the quoted column name.
   */
  function CleanRow(columns: seq<string>, row: seq<Cell>, overrideDate: Option<string>,
                    formatDate: string -> Result<string, string>): (o: RowOutcome)
    ensures !HasRequired(columns) ==> o.Failed?
    ensures o.Written? ==> o.student.regNo != ""
  {
    match RowDate(columns, row, overrideDate, formatDate)
    case Failure(e) => Failed(e)
    case Success(date) =>
      if "reg_no" !in columns then Failed("'reg_no'")
      else if "seat_no" !in columns then Failed("'seat_no'")
      else if "room" !in columns then Failed("'room'")
      else if "course_code" !in columns then Failed("'course_code'")
      else if "course_title" !in columns then Failed("'course_title'")
      else if "session" !in columns then Failed("'session'")
      else
        var regNo := RowRegNo(columns, row);
        var seatNo := CleanCell(Field(columns, row, "seat_no").value);
        var room := CleanCell(Field(columns, row, "room").value);
        var courseCode := CleanCell(Field(columns, row, "course_code").value);
        var courseTitle := CleanCell(Field(columns, row, "course_title").value);
        var session := CleanSession(Field(columns, row, "session").value);
        if regNo == "" then Skipped
        else Written(Student(regNo, seatNo, room, courseCode, courseTitle, date, session))
  }

  /**
   * A row is skipped exactly when its date resolves, the required columns
   * exist and its stripped registration number is empty; with the columns
   * present, only the date can fail; a written row carries the cleaned
   * fields.
   */
  lemma CleanRowOutcome(columns: seq<string>, row: seq<Cell>, overrideDate: Option<string>,
                        formatDate: string -> Result<string, string>)
    ensures var o := CleanRow(columns, row, overrideDate, formatDate);
      o.Skipped? <==> RowDate(columns, row, overrideDate, formatDate).Success? && HasRequired(columns) && RowRegNo(columns, row) == ""
    ensures var o := CleanRow(columns, row, overrideDate, formatDate);
      o.Failed? && HasRequired(columns) ==> RowDate(columns, row, overrideDate, formatDate).Failure?
    ensures var o := CleanRow(columns, row, overrideDate, formatDate);
      o.Written? ==>
        && HasRequired(columns)
        && o.student.regNo == RowRegNo(columns, row)
        && o.student.regNo != "" && Bordered(o.student.regNo, PyWhitespace)
        && RowDate(columns, row, overrideDate, formatDate).Success?
        && o.student.date == RowDate(columns, row, overrideDate, formatDate).value
        && o.student.seatNo == CleanCell(Field(columns, row, "seat_no").value)
        && o.student.room == CleanCell(Field(columns, row, "room").value)
        && o.student.courseCode == CleanCell(Field(columns, row, "course_code").value)
        && o.student.courseTitle == CleanCell(Field(columns, row, "course_title").value)
        && o.student.session == CleanSession(Field(columns, row, "session").value)
  {
  }

  /**
   * A NaN registration-number cell is not skipped: `str(nan)` is "nan", so
   * the row is stored under the registration number "nan".
   */
  lemma NanRegNoIsWritten(columns: seq<string>, row: seq<Cell>, overrideDate: Option<string>,
                          formatDate: string -> Result<string, string>)
    requires HasRequired(columns)
    requires RowDate(columns, row, overrideDate, formatDate).Success?
    requires Field(columns, row, "reg_no") == Some(None)
    ensures CleanRow(columns, row, overrideDate, formatDate).Written?
    ensures CleanRow(columns, row, overrideDate, formatDate).student.regNo == "nan"
  {
    StripBordered("nan", PyWhitespace);
  }

  /** The date is chosen before the skip test: a date that fails to convert is reported even on a row with a blank registration number. */
  lemma DateFailureBeatsSkip(columns: seq<string>, row: seq<Cell>, overrideDate: Option<string>,
                             formatDate: string -> Result<string, string>)
    requires RowDate(columns, row, overrideDate, formatDate).Failure?
    ensures CleanRow(columns, row, overrideDate, formatDate) == Failed(RowDate(columns, row, overrideDate, formatDate).error)
  {
  }

  // ---------------------------------------------------------------------------
  // The students table
  // ---------------------------------------------------------------------------

  /** A student row whose primary key has no NULL component. */
  predicate HasFullKey(s: Student)
  {
    s.date.Some? && s.session.Some?
  }

  /** The primary key `(reg_no, date, session)`. */
  function KeyOf(s: Student): (string, string, string)
    requires HasFullKey(s)
  {
    (s.regNo, s.date.value, s.session.value)
  }

  /**
   * The table. In SQLite a primary-key column of an ordinary (rowid) table
   * admits NULL and NULLs never compare equal for uniqueness, so rows with
   * a NULL date or session never conflict and are kept side by side;
   * rows with a full key are unique per key.
   */
  datatype Table = Table(keyed: map<(string, string, string), Student>, unkeyed: seq<Student>)

  /** Every keyed row sits under its own key, and every unkeyed row has a NULL key part. */
  predicate TableValid(t: Table)
  {
    && (forall k :: k in t.keyed ==> HasFullKey(t.keyed[k]) && KeyOf(t.keyed[k]) == k)
    && (forall i :: 0 <= i < |t.unkeyed| ==> !HasFullKey(t.unkeyed[i]))
  }

  /**
   * `INSERT OR REPLACE`: a row with a full key replaces whatever row had
   * that key, and leaves every other key alone; a row with a NULL key part
   * is added. The table stays valid.
   */
  function Upsert(t: Table, s: Student): (r: Table)
    ensures TableValid(t) ==> TableValid(r)
    ensures HasFullKey(s) ==> KeyOf(s) in r.keyed && r.keyed[KeyOf(s)] == s
    ensures HasFullKey(s) ==> r.unkeyed == t.unkeyed
    ensures !HasFullKey(s) ==> r.keyed == t.keyed && r.unkeyed == t.unkeyed + [s]
  {
    if HasFullKey(s) then Table(t.keyed[KeyOf(s) := s], t.unkeyed)
    else Table(t.keyed, t.unkeyed + [s])
  }

  /** An upsert leaves every key other than the row's own as it was. */
  lemma UpsertKeepsOtherKeys(t: Table, s: Student, k: (string, string, string))
    requires !HasFullKey(s) || k != KeyOf(s)
    ensures k in Upsert(t, s).keyed <==> k in t.keyed
    ensures k in t.keyed ==> Upsert(t, s).keyed[k] == t.keyed[k]
  {
  }

  /** The database file, updated in place by each `INSERT OR REPLACE`. */
  class Database {
    var students: Table

    ghost predicate Valid()
      reads this
    {
      TableValid(students)
    }

    constructor (initial: Table)
      requires TableValid(initial)
      ensures Valid() && students == initial
    {
      students := initial;
    }

    /** One `INSERT OR REPLACE INTO students ...` statement. */
    method InsertOrReplace(s: Student)
      requires Valid()
      modifies this
      ensures Valid()
      ensures students == Upsert(old(students), s)
    {
      if HasFullKey(s) {
        students := Table(students.keyed[KeyOf(s) := s], students.unkeyed);
      } else {
        students := Table(students.keyed, students.unkeyed + [s]);
      }
    }
  }

  // ---------------------------------------------------------------------------
  // Ingestion
  // ---------------------------------------------------------------------------

  /** "Error inserting row <n>: <reason>", where n is one more than the rows inserted so far. */
  datatype RowError = RowError(rowNumber: nat, reason: string)

  /** The state of the insertion loop: the table, the `inserted` counter and the errors reported. */
  datatype Progress = Progress(table: Table, inserted: nat, errors: seq<RowError>)

  /** One iteration of the insertion loop. */
  function Step(p: Progress, o: RowOutcome): (r: Progress)
    ensures p.errors <= r.errors && p.inserted <= r.inserted
    ensures (r.inserted - p.inserted) + (|r.errors| - |p.errors|) == if o.Skipped? then 0 else 1
    ensures forall i :: |p.errors| <= i < |r.errors| ==> r.errors[i].rowNumber == p.inserted + 1
    ensures o.Skipped? ==> r == p
    ensures o.Written? ==> r == Progress(Upsert(p.table, o.student), p.inserted + 1, p.errors)
    ensures o.Failed? ==> r == Progress(p.table, p.inserted, p.errors + [RowError(p.inserted + 1, o.reason)])
  {
    match o
    case Skipped => p
    case Written(s) => Progress(Upsert(p.table, s), p.inserted + 1, p.errors)
    case Failed(e) => p.(errors := p.errors + [RowError(p.inserted + 1, e)])
  }

  /** The loop state after processing the given row outcomes in order. */
  function Ingest(t: Table, outcomes: seq<RowOutcome>): (r: Progress)
    ensures r.inserted + |r.errors| <= |outcomes|
    ensures forall i :: 0 <= i < |r.errors| ==> 1 <= r.errors[i].rowNumber <= r.inserted + 1
    decreases |outcomes|
  {
    if outcomes == [] then Progress(t, 0, [])
    else Step(Ingest(t, outcomes[..|outcomes| - 1]), outcomes[|outcomes| - 1])
  }

  /** The body of the per-row `try` for one upload, as a function of the row. */
  function Cleaner(columns: seq<string>, overrideDate: Option<string>,
                   formatDate: string -> Result<string, string>): (clean: seq<Cell> -> RowOutcome)
    ensures forall row :: clean(row) == CleanRow(columns, row, overrideDate, formatDate)
  {
    row => CleanRow(columns, row, overrideDate, formatDate)
  }

  /** The outcome of every row of the frame, in row order. */
  function Outcomes(clean: seq<Cell> -> RowOutcome, rows: seq<seq<Cell>>): (os: seq<RowOutcome>)
    ensures |os| == |rows|
    decreases |rows|
  {
    if rows == [] then []
    else Outcomes(clean, rows[..|rows| - 1]) + [clean(rows[|rows| - 1])]
  }

  /** The outcome of row i is the cleaning of row i. */
  lemma {:induction false} OutcomesAt(clean: seq<Cell> -> RowOutcome, rows: seq<seq<Cell>>, i: nat)
    requires i < |rows|
    ensures Outcomes(clean, rows)[i] == clean(rows[i])
    decreases |rows|
  {
    if i < |rows| - 1 {
      OutcomesAt(clean, rows[..|rows| - 1], i);
    }
  }

  /** The students written, in row order. */
  function Writes(outcomes: seq<RowOutcome>): seq<Student>
    decreases |outcomes|
  {
    if outcomes == [] then []
    else
      var last := outcomes[|outcomes| - 1];
      Writes(outcomes[..|outcomes| - 1]) + (if last.Written? then [last.student] else [])
  }

  /** The reasons of the rows that failed, in row order. */
  function FailureReasons(outcomes: seq<RowOutcome>): seq<string>
    decreases |outcomes|
  {
    if outcomes == [] then []
    else
      var last := outcomes[|outcomes| - 1];
      FailureReasons(outcomes[..|outcomes| - 1]) + (if last.Failed? then [last.reason] else [])
  }

  /** Applying the upserts one after the other. */
  function UpsertAll(t: Table, students: seq<Student>): Table
    decreases |students|
  {
    if students == [] then t
    else Upsert(UpsertAll(t, students[..|students| - 1]), students[|students| - 1])
  }

  /** The reasons of the reported row errors, in order. */
  function Reasons(errors: seq<RowError>): seq<string>
  {
    seq(|errors|, i requires 0 <= i < |errors| => errors[i].reason)
  }

  /**
   * Ingestion upserts exactly the written rows, in row order; `inserted`
   * counts every one of them, replacements included; every failing row is
   * reported, in row order, and processing goes on after it.
   */
  lemma {:induction false} IngestSummary(t: Table, outcomes: seq<RowOutcome>)
    ensures Ingest(t, outcomes).table == UpsertAll(t, Writes(outcomes))
    ensures Ingest(t, outcomes).inserted == |Writes(outcomes)|
    ensures Reasons(Ingest(t, outcomes).errors) == FailureReasons(outcomes)
    decreases |outcomes|
  {
    if outcomes != [] {
      var init := outcomes[..|outcomes| - 1];
      IngestSummary(t, init);
      var last := outcomes[|outcomes| - 1];
      if last.Written? {
        assert Writes(outcomes) == Writes(init) + [last.student];
        assert Writes(outcomes)[..|Writes(outcomes)| - 1] == Writes(init);
        assert FailureReasons(outcomes) == FailureReasons(init);
      } else if last.Failed? {
        assert Writes(outcomes) == Writes(init);
        assert FailureReasons(outcomes) == FailureReasons(init) + [last.reason];
      } else {
        assert Writes(outcomes) == Writes(init);
        assert FailureReasons(outcomes) == FailureReasons(init);
      }
    }
  }

  /** The last student in the list with the given full key, if any. */
  function LastWithKey(students: seq<Student>, k: (string, string, string)): (r: Option<Student>)
    ensures r.Some? ==> r.value in students && HasFullKey(r.value) && KeyOf(r.value) == k
    ensures r.None? ==> forall i :: 0 <= i < |students| && HasFullKey(students[i]) ==> KeyOf(students[i]) != k
    ensures r.Some? ==>
      exists i :: 0 <= i < |students| && students[i] == r.value &&
        forall j :: i < j < |students| && HasFullKey(students[j]) ==> KeyOf(students[j]) != k
    decreases |students|
  {
    if students == [] then None
    else
      var last := students[|students| - 1];
      if HasFullKey(last) && KeyOf(last) == k then Some(last)
      else LastWithKey(students[..|students| - 1], k)
  }

  /**
   * After a sequence of upserts, each full key maps to the last row written
   * with that key; a key no row was written with keeps what it had.
   */
  lemma {:induction false} UpsertAllKeyed(t: Table, students: seq<Student>, k: (string, string, string))
    ensures LastWithKey(students, k).Some? ==>
      k in UpsertAll(t, students).keyed && UpsertAll(t, students).keyed[k] == LastWithKey(students, k).value
    ensures LastWithKey(students, k).None? ==>
      (k in UpsertAll(t, students).keyed <==> k in t.keyed)
      && (k in t.keyed ==> UpsertAll(t, students).keyed[k] == t.keyed[k])
    decreases |students|
  {
    if students != [] {
      var last := students[|students| - 1];
      UpsertAllKeyed(t, students[..|students| - 1], k);
      if !HasFullKey(last) || k != KeyOf(last) {
        UpsertKeepsOtherKeys(UpsertAll(t, students[..|students| - 1]), last, k);
      }
    }
  }

  /** The rows with a NULL in their key, in order. */
  function NullKeyed(students: seq<Student>): seq<Student>
    decreases |students|
  {
    if students == [] then []
    else
      var last := students[|students| - 1];
      NullKeyed(students[..|students| - 1]) + (if HasFullKey(last) then [] else [last])
  }

  /** Rows with a NULL key part are never replaced: each one is added after the rows already there. */
  lemma {:induction false} UpsertAllUnkeyed(t: Table, students: seq<Student>)
    ensures UpsertAll(t, students).unkeyed == t.unkeyed + NullKeyed(students)
    decreases |students|
  {
    if students != [] {
      UpsertAllUnkeyed(t, students[..|students| - 1]);
    }
  }

  /** Processing one more row is one more step of the fold, on that row's cleaning. */
  lemma IngestStep(t: Table, clean: seq<Cell> -> RowOutcome, rows: seq<seq<Cell>>, i: nat)
    requires i < |rows|
    ensures Ingest(t, Outcomes(clean, rows[..i + 1])) == Step(Ingest(t, Outcomes(clean, rows[..i])), clean(rows[i]))
  {
    assert rows[..i + 1][..i] == rows[..i];
  }

  /**
   * The insertion loop of `main`: clean each row, upsert it unless skipped
   * or failed, count the upserts, report each failure numbered one past the
   * rows inserted so far.
   */
  method InsertRows(db: Database, rows: seq<seq<Cell>>, clean: seq<Cell> -> RowOutcome)
    returns (inserted: nat, errors: seq<RowError>)
    requires db.Valid()
    modifies db
    ensures db.Valid()
    ensures Progress(db.students, inserted, errors) == Ingest(old(db.students), Outcomes(clean, rows))
  {
    ghost var initial := db.students;
    inserted, errors := 0, [];
    for i := 0 to |rows|
      invariant db.Valid()
      invariant Progress(db.students, inserted, errors) == Ingest(initial, Outcomes(clean, rows[..i]))
    {
      IngestStep(initial, clean, rows, i);
      match clean(rows[i]) {
        case Skipped =>
        case Written(s) =>
          db.InsertOrReplace(s);
          inserted := inserted + 1;
        case Failed(e) =>
          errors := errors + [RowError(inserted + 1, e)];
      }
    }
    assert rows[..|rows|] == rows;
  }

  // ---------------------------------------------------------------------------
  // The worker as a whole
  // ---------------------------------------------------------------------------

  /** What the worker prints, one JSON line each. */
  datatype Output = Usage | MissingColumnsError(message: string) | RowFailed(error: RowError) | Inserted(count: nat)

  /** The optional override date: the third argument after the script name. */
  function OverrideArgument(argv: seq<string>): (r: Option<string>)
    ensures r.Some? <==> |argv| > 3
    ensures r.Some? ==> r.value == argv[3]
  {
    if |argv| > 3 then Some(argv[3]) else None
  }

  function ErrorLines(errors: seq<RowError>): (r: seq<Output>)
    ensures |r| == |errors|
    ensures forall i :: 0 <= i < |errors| ==> r[i] == RowFailed(errors[i])
  {
    seq(|errors|, i requires 0 <= i < |errors| => RowFailed(errors[i]))
  }

  /**
   * `main()` on the frame the spreadsheet reads as and the database it
   * writes to. Fewer than two arguments: only the usage error, nothing
   * touched. Missing required columns: only that error, before any write.
   * Otherwise every row is processed as `Ingest` says, each failing row
   * reported, then the count.
   */
  method Run(argv: seq<string>, frame: Frame, formatDate: string -> Result<string, string>, db: Database)
    returns (out: seq<Output>)
    requires db.Valid()
    modifies db
    ensures db.Valid()
    ensures |argv| < 3 ==> out == [Usage] && db.students == old(db.students)
    ensures |argv| >= 3 && MissingColumns(RenamedColumns(frame.columns)) != [] ==>
      out == [MissingColumnsError(MissingColumnsText(MissingColumns(RenamedColumns(frame.columns))))]
      && db.students == old(db.students)
    ensures |argv| >= 3 && MissingColumns(RenamedColumns(frame.columns)) == [] ==>
      var p := Ingest(old(db.students), Outcomes(Cleaner(RenamedColumns(frame.columns), OverrideArgument(argv), formatDate), frame.rows));
      db.students == p.table && out == ErrorLines(p.errors) + [Inserted(p.inserted)]
  {
    if |argv| < 3 {
      return [Usage];
    }
    var overrideDate := OverrideArgument(argv);

    var rename := BuildRename(HeaderKey, frame.columns, ColumnMappings);
    var columns := frame.columns;
    if rename != map[] {
      columns := RenameColumns(columns, rename);
    }
    assert columns == RenamedColumns(frame.columns) by {
      if rename == map[] {
        assert RenameColumns(frame.columns, rename) == frame.columns;
      }
    }

    var missing := MissingColumns(columns);
    if missing != [] {
      return [MissingColumnsError(MissingColumnsText(missing))];
    }

    var inserted, errors := InsertRows(db, frame.rows, Cleaner(columns, overrideDate, formatDate));
    out := ErrorLines(errors) + [Inserted(inserted)];
  }
}

=== FILE: seating_app.dfy ===
/**
 * The seating-lookup front end: the record sanitiser, the outcome logic of a
 * lookup (the `loading`/`err`/`result` state it leaves behind), and the
 * fallbacks the result card shows for missing fields.
 */
module SeatingApp {
  import opened Wrappers
  import opened Text

  // ---------------------------------------------------------------------------
  // Sanitising values that come back from the spreadsheet-backed store
  // ---------------------------------------------------------------------------

  /** Strings a spreadsheet export writes for an empty cell, compared lower-cased. */
  const Placeholders: set<string> := {"nan", "none", "null", "nan.0"}

  /** JavaScript's `s.trim()`. */
  function Trim(s: string): string
  {
    Strip(s, JsWhitespace)
  }

  /** A value sanitising keeps: non-empty, trimmed, and not a placeholder. */
  predicate Kept(s: string)
  {
    s != [] && Bordered(s, JsWhitespace) && Lower(s) !in Placeholders
  }

  /**
   * `sanitize(val)`: absent values, blank strings and placeholder tokens
   * (in any letter case) become missing; anything else is kept trimmed,
   * with its letter case unchanged.
   */
  function Sanitize(val: Option<string>): (r: Option<string>)
    ensures val.None? ==> r.None?
    ensures val.Some? ==> (r.None? <==> Trim(val.value) == [] || Lower(Trim(val.value)) in Placeholders)
    ensures r.Some? ==> r.value == Trim(val.value) && Kept(r.value)
  {
    match val
    case None => None
    case Some(v) =>
      var s := Trim(v);
      if s == [] then None
      else if Lower(s) in Placeholders then None
      else Some(s)
  }

  /** A kept value passes through sanitising unchanged. */
  lemma SanitizeKept(s: string)
    requires Kept(s)
    ensures Sanitize(Some(s)) == Some(s)
  {
    StripBordered(s, JsWhitespace);
  }

  /** Sanitising twice is sanitising once. */
  lemma SanitizeIdempotent(val: Option<string>)
    ensures Sanitize(Sanitize(val)) == Sanitize(val)
  {
    if Sanitize(val).Some? {
      SanitizeKept(Sanitize(val).value);
    }
  }

  // ---------------------------------------------------------------------------
  // Records
  // ---------------------------------------------------------------------------

  /** The cleaned record the result card shows; `None` is "missing". */
  datatype Record = Record(
    regNo: Option<string>,
    seatNo: Option<string>,
    room: Option<string>,
    courseCode: Option<string>,
    courseTitle: Option<string>,
    date: Option<string>,
    session: Option<string>)

  /**
   * A parsed JSON body as the model sees it: the fields that are present
   * with a non-null value, each rendered as JavaScript's `String(value)`.
   * A field that is absent or null is simply not a key.
   */
  type RawRecord = map<string, string>

  function Get(raw: RawRecord, field: string): Option<string>
  {
    if field in raw then Some(raw[field]) else None
  }

  /** Every field of the record is missing or a kept value. */
  predicate Canonical(r: Record)
  {
    && (r.regNo.Some? ==> Kept(r.regNo.value))
    && (r.seatNo.Some? ==> Kept(r.seatNo.value))
    && (r.room.Some? ==> Kept(r.room.value))
    && (r.courseCode.Some? ==> Kept(r.courseCode.value))
    && (r.courseTitle.Some? ==> Kept(r.courseTitle.value))
    && (r.date.Some? ==> Kept(r.date.value))
    && (r.session.Some? ==> Kept(r.session.value))
  }

  /** The `cleaned` object built from a successful response body. */
  function Normalize(raw: RawRecord): (r: Record)
    ensures Canonical(r)
    ensures r.regNo == Sanitize(Get(raw, "reg_no"))
    ensures r.seatNo == Sanitize(Get(raw, "seat_no"))
    ensures r.room == Sanitize(Get(raw, "room"))
    ensures r.courseCode == Sanitize(Get(raw, "course_code"))
    ensures r.courseTitle == Sanitize(Get(raw, "course_title"))
    ensures r.date == Sanitize(Get(raw, "date"))
    ensures r.session == Sanitize(Get(raw, "session"))
  {
    Record(
      Sanitize(Get(raw, "reg_no")),
      Sanitize(Get(raw, "seat_no")),
      Sanitize(Get(raw, "room")),
      Sanitize(Get(raw, "course_code")),
      Sanitize(Get(raw, "course_title")),
      Sanitize(Get(raw, "date")),
      Sanitize(Get(raw, "session")))
  }

  /** A record rendered back as a raw body: present fields only, under their JSON names. */
  function AsRaw(r: Record): RawRecord
  {
    var m: RawRecord := map[];
    var m := if r.regNo.Some? then m["reg_no" := r.regNo.value] else m;
    var m := if r.seatNo.Some? then m["seat_no" := r.seatNo.value] else m;
    var m := if r.room.Some? then m["room" := r.room.value] else m;
    var m := if r.courseCode.Some? then m["course_code" := r.courseCode.value] else m;
    var m := if r.courseTitle.Some? then m["course_title" := r.courseTitle.value] else m;
    var m := if r.date.Some? then m["date" := r.date.value] else m;
    if r.session.Some? then m["session" := r.session.value] else m
  }

  /** Reading a field of the rendered body gives the record's field back. */
  lemma AsRawFields(r: Record)
    ensures Get(AsRaw(r), "reg_no") == r.regNo
    ensures Get(AsRaw(r), "seat_no") == r.seatNo
    ensures Get(AsRaw(r), "room") == r.room
    ensures Get(AsRaw(r), "course_code") == r.courseCode
    ensures Get(AsRaw(r), "course_title") == r.courseTitle
    ensures Get(AsRaw(r), "date") == r.date
    ensures Get(AsRaw(r), "session") == r.session
  {
  }

  /** Normalising a normalised record, fed back in as a raw body, gives it back unchanged. */
  lemma NormalizeIdempotent(raw: RawRecord)
    ensures Normalize(AsRaw(Normalize(raw))) == Normalize(raw)
  {
    AsRawFields(Normalize(raw));
    SanitizeIdempotent(Get(raw, "reg_no"));
    SanitizeIdempotent(Get(raw, "seat_no"));
    SanitizeIdempotent(Get(raw, "room"));
    SanitizeIdempotent(Get(raw, "course_code"));
    SanitizeIdempotent(Get(raw, "course_title"));
    SanitizeIdempotent(Get(raw, "date"));
    SanitizeIdempotent(Get(raw, "session"));
  }

  // ---------------------------------------------------------------------------
  // Display fallbacks on the result card
  // ---------------------------------------------------------------------------

  /** JavaScript truthiness of a possibly-null string. */
  predicate Truthy(v: Option<string>)
  {
    v.Some? && v.value != ""
  }

  const Dash: string := "—"

  /**
   * The seat-number cell: the seat number when present; otherwise, when both
   * the registration number and the room are present, the last two
   * characters of the registration number (all of it if shorter); otherwise
   * a dash.
   */
  function SeatDisplay(r: Record): (s: string)
    ensures Truthy(r.seatNo) ==> s == r.seatNo.value
    ensures !Truthy(r.seatNo) && Truthy(r.regNo) && Truthy(r.room) ==>
      |s| == (if |r.regNo.value| < 2 then |r.regNo.value| else 2)
      && s == r.regNo.value[|r.regNo.value| - |s|..]
    ensures !Truthy(r.seatNo) && !(Truthy(r.regNo) && Truthy(r.room)) ==> s == Dash
    ensures s != ""
  {
    if Truthy(r.seatNo) then r.seatNo.value
    else if Truthy(r.regNo) && Truthy(r.room) then
      var reg := r.regNo.value;
      reg[if |reg| >= 2 then |reg| - 2 else 0..]
    else Dash
  }

  /** The room cell: the room, or hall "103" when the room is missing. */
  function RoomDisplay(room: Option<string>): (s: string)
    ensures Truthy(room) ==> s == room.value
    ensures !Truthy(room) ==> s == "103"
    ensures s != ""
  {
    if Truthy(room) then room.value else "103"
  }

  /** The course code and course title cells: the value, or a dash when missing. */
  function OrDash(v: Option<string>): (s: string)
    ensures Truthy(v) ==> s == v.value
    ensures !Truthy(v) ==> s == Dash
    ensures s != ""
  {
    if Truthy(v) then v.value else Dash
  }

  /** The session cell: the two known sessions spelt out, any other value as it is, "FN" when missing. */
  function SessionDisplay(session: Option<string>): (s: string)
    ensures session == Some("FN") ==> s == "Forenoon (FN)"
    ensures session == Some("AN") ==> s == "Afternoon (AN)"
    ensures session != Some("FN") && session != Some("AN") ==>
      s == (if Truthy(session) then session.value else "FN")
    ensures s != ""
  {
    if session == Some("FN") then "Forenoon (FN)"
    else if session == Some("AN") then "Afternoon (AN)"
    else if Truthy(session) then session.value
    else "FN"
  }

  /** A string that is not a placeholder token once lower-cased. */
  predicate NotPlaceholder(s: string)
  {
    Lower(s) !in Placeholders
  }

  /** Every placeholder token is three to five characters long. */
  lemma PlaceholderLength(s: string)
    requires s in Placeholders
    ensures 3 <= |s| <= 5
  {
  }

  /** The seat cell of a canonical record is never blank and never a placeholder. */
  lemma SeatDisplayClean(r: Record)
    requires Canonical(r)
    ensures NotPlaceholder(SeatDisplay(r))
  {
    var s := SeatDisplay(r);
    if Lower(s) in Placeholders {
      PlaceholderLength(Lower(s));
      assert |s| > 2;
      assert Truthy(r.seatNo);
    }
  }

  /** The room cell of a canonical record is never a placeholder. */
  lemma RoomDisplayClean(room: Option<string>)
    requires room.Some? ==> Kept(room.value)
    ensures NotPlaceholder(RoomDisplay(room))
  {
    if !Truthy(room) {
      assert Lower("103")[0] == '1';
    }
  }

  /** The course code and course title cells of a canonical record are never placeholders. */
  lemma OrDashClean(v: Option<string>)
    requires v.Some? ==> Kept(v.value)
    ensures NotPlaceholder(OrDash(v))
  {
    if !Truthy(v) {
      assert |Lower(Dash)| == 1;
    }
  }

  /** The session cell of a canonical record is never a placeholder. */
  lemma SessionDisplayClean(session: Option<string>)
    requires session.Some? ==> Kept(session.value)
    ensures NotPlaceholder(SessionDisplay(session))
  {
    var s := SessionDisplay(session);
    if Lower(s) in Placeholders {
      PlaceholderLength(Lower(s));
    }
  }

  /**
   * The result card never shows a placeholder token for a record that went
   * through normalisation: every fallback is itself a real value.
   */
  lemma DisplaysAreClean(raw: RawRecord)
    ensures var r := Normalize(raw);
      && (r.regNo.Some? ==> NotPlaceholder(r.regNo.value))
      && NotPlaceholder(SeatDisplay(r))
      && NotPlaceholder(RoomDisplay(r.room))
      && NotPlaceholder(OrDash(r.courseCode))
      && NotPlaceholder(OrDash(r.courseTitle))
      && NotPlaceholder(SessionDisplay(r.session))
  {
    var r := Normalize(raw);
    SeatDisplayClean(r);
    RoomDisplayClean(r.room);
    OrDashClean(r.courseCode);
    OrDashClean(r.courseTitle);
    SessionDisplayClean(r.session);
  }

  // ---------------------------------------------------------------------------
  // Lookup outcomes
  // ---------------------------------------------------------------------------

  /** The three ways a lookup can fail. */
  datatype LookupError = EmptyInput | NotFound | ServerError(message: string)

  const EmptyInputMessage: string := "Please enter your Registration Number"
  const NotFoundMessage: string := "Hall is not allocated for you"
  const ServerErrorPrefix: string := "Unable to fetch seating details: "

  /** The text the error banner shows for each failure. */
  function Message(e: LookupError): (r: string)
    ensures e.ServerError? ==> |r| >= |ServerErrorPrefix| && r[..|ServerErrorPrefix|] == ServerErrorPrefix
    ensures e.ServerError? ==> r[|ServerErrorPrefix|..] == e.message
    ensures e == EmptyInput ==> r == EmptyInputMessage
    ensures e == NotFound ==> r == NotFoundMessage
  {
    match e
    case EmptyInput => EmptyInputMessage
    case NotFound => NotFoundMessage
    case ServerError(m) => ServerErrorPrefix + m
  }

  /** Every server-error banner starts with the letter 'U' of its prefix. */
  lemma ServerMessageStart(m: string)
    ensures |Message(ServerError(m))| > 0 && Message(ServerError(m))[0] == 'U'
  {
    assert Message(ServerError(m))[0] == ServerErrorPrefix[0];
  }

  /** The banner text determines the failure: distinct failures never show the same text. */
  lemma MessageInjective(a: LookupError, b: LookupError)
    requires Message(a) == Message(b)
    ensures a == b
  {
    if a.ServerError? && b.ServerError? {
      assert a.message == Message(a)[|ServerErrorPrefix|..];
      assert b.message == Message(b)[|ServerErrorPrefix|..];
    } else if a.ServerError? {
      ServerMessageStart(a.message);
    } else if b.ServerError? {
      ServerMessageStart(b.message);
    }
  }

  /** The request a lookup issues: the trimmed registration number and the session. */
  datatype Request = Request(regno: string, session: string)

  /** The body of an HTTP response: a parsed JSON object, or the message of the parse error. */
  datatype Body = Parsed(fields: RawRecord) | Unparseable(parseError: string)

  /** What the request produced: a response with a status and a body, or a thrown exception. */
  datatype Response = Reply(status: nat, body: Body) | Thrown(message: string)

  /** `res.ok`: a status in the range 200-299. */
  predicate StatusOk(status: nat)
  {
    200 <= status <= 299
  }

  /**
   * The message of the error thrown for a status that is neither 404 nor OK:
   * the body's `error` field when it is a non-empty string, otherwise
   * "Server error (<status>)". A body that fails to parse counts as `{}`.
   */
  function ServerErrorText(status: nat, body: Body): (m: string)
    ensures body.Parsed? && "error" in body.fields && body.fields["error"] != "" ==>
      m == body.fields["error"]
    ensures !(body.Parsed? && "error" in body.fields && body.fields["error"] != "") ==>
      m == "Server error (" + NatToString(status) + ")"
  {
    var errBody: RawRecord := if body.Parsed? then body.fields else map[];
    if "error" in errBody && errBody["error"] != "" then errBody["error"]
    else "Server error (" + NatToString(status) + ")"
  }

  /**
   * How the response to an issued request is classified. A 404 is "not
   * allocated" whatever the body; success needs an OK status and a body that
   * parses, and then yields a canonical record; every other response is a
   * server error. An issued request never yields the empty-input failure.
   */
  function Classify(response: Response): (r: Result<Record, LookupError>)
    ensures response.Reply? && response.status == 404 ==> r == Failure(NotFound)
    ensures r.Success? <==> response.Reply? && StatusOk(response.status) && response.body.Parsed?
    ensures r.Success? ==> Canonical(r.value)
    ensures r.Failure? ==> r.error != EmptyInput
    ensures response.Thrown? ==> r == Failure(ServerError(response.message))
    ensures response.Reply? && response.status != 404 && !StatusOk(response.status) ==>
      r == Failure(ServerError(ServerErrorText(response.status, response.body)))
    ensures response.Reply? && StatusOk(response.status) && response.body.Unparseable? ==>
      r == Failure(ServerError(response.body.parseError))
    ensures response.Reply? && StatusOk(response.status) && response.body.Parsed? ==>
      r == Success(Normalize(response.body.fields))
  {
    match response
    case Thrown(m) => Failure(ServerError(m))
    case Reply(status, body) =>
      if status == 404 then Failure(NotFound)
      else if !StatusOk(status) then Failure(ServerError(ServerErrorText(status, body)))
      else
        match body
        case Unparseable(e) => Failure(ServerError(e))
        case Parsed(data) => Success(Normalize(data))
  }

  /** The request a lookup with this input issues, if any: none when the input is empty. */
  function RequestFor(reg: string, session: string): (q: Option<Request>)
    ensures q.None? <==> reg == ""
    ensures q.Some? ==> q.value.regno == Trim(reg) && q.value.session == session
  {
    if reg == "" then None else Some(Request(Trim(reg), session))
  }

  /** The outcome of a whole lookup: empty input fails locally, anything else is classified. */
  function Outcome(reg: string, response: Response): (r: Result<Record, LookupError>)
    ensures reg == "" ==> r == Failure(EmptyInput)
    ensures reg != "" ==> r == Classify(response)
  {
    if reg == "" then Failure(EmptyInput) else Classify(response)
  }

  /**
   * The empty-input check looks at the untrimmed input: a registration
   * number made only of whitespace is not refused locally, and the request
   * it issues carries an empty `regno`.
   */
  lemma WhitespaceInputIsSent(reg: string, session: string, response: Response)
    requires reg != ""
    requires forall i :: 0 <= i < |reg| ==> reg[i] in JsWhitespace
    ensures RequestFor(reg, session) == Some(Request("", session))
    ensures Outcome(reg, response) != Failure(EmptyInput)
  {
    StripAllWhitespace(reg, JsWhitespace);
  }

  /** The page state `lookup` reads and writes. */
  class App {
    var reg: string
    var session: string
    var result: Option<Record>
    var err: Option<string>
    var loading: bool

    /** The initial state: empty input, forenoon session, nothing shown, not loading. */
    constructor ()
      ensures reg == "" && session == "FN"
      ensures result == None && err == None && !loading
    {
      reg, session := "", "FN";
      result, err := None, None;
      loading := false;
    }

    /**
     * `lookup()`, given the response its request would receive. It clears
     * the error and the result, then leaves through exactly one exit; each
     * exit leaves either an error banner or a sanitised record, never both,
     * and loading ends false. The request issued (none on empty input) is
     * returned.
     */
    method Lookup(response: Response) returns (issued: Option<Request>)
      modifies this`loading, this`err, this`result
      ensures issued == RequestFor(reg, session)
      ensures !loading
      ensures err.Some? != result.Some?
      ensures Outcome(reg, response).Success? ==>
        result == Some(Outcome(reg, response).value) && err == None
      ensures Outcome(reg, response).Failure? ==>
        err == Some(Message(Outcome(reg, response).error)) && result == None
    {
      loading := true;
      err := None;
      result := None;

      if reg == "" {
        err := Some(EmptyInputMessage);
        loading := false;
        issued := None;
        return;
      }

      issued := Some(Request(Trim(reg), session));
      match response {
        case Thrown(m) =>
          err := Some(ServerErrorPrefix + m);
        case Reply(status, body) =>
          if status == 404 {
            err := Some(NotFoundMessage);
            loading := false;
            return;
          }
          if !StatusOk(status) {
            err := Some(ServerErrorPrefix + ServerErrorText(status, body));
          } else {
            match body {
              case Unparseable(e) =>
                err := Some(ServerErrorPrefix + e);
              case Parsed(data) =>
                result := Some(Normalize(data));
            }
          }
      }
      loading := false;
    }
  }

  // ---------------------------------------------------------------------------
  // Worked examples
  // ---------------------------------------------------------------------------

  /** Absent, blank and whitespace-only values are missing. */
  lemma SanitizeBlankExamples()
    ensures Sanitize(None) == None
    ensures Sanitize(Some("")) == None
    ensures Sanitize(Some("   ")) == None
  {
    StripAllWhitespace("   ", JsWhitespace);
  }

  /** "NaN" is a placeholder whatever its letter case. */
  lemma SanitizeNaNExample()
    ensures Sanitize(Some("NaN")) == None
  {
    StripBordered("NaN", JsWhitespace);
    assert Lower("NaN") == "nan";
  }

  /** A server error with an `error` field shows that field; with an empty body, the status. */
  lemma ServerErrorExamples()
    ensures Classify(Reply(500, Parsed(map["error" := "db down"]))) == Failure(ServerError("db down"))
    ensures Classify(Reply(500, Parsed(map[]))) == Failure(ServerError("Server error (500)"))
    ensures Classify(Reply(500, Unparseable("Unexpected end of JSON input"))) == Failure(ServerError("Server error (500)"))
  {
    assert NatToString(500) == "500";
    assert "Server error (" + "500" + ")" == "Server error (500)";
  }
}

=== FILE: text.dfy ===
/**
 * String helpers shared by the front end and the spreadsheet worker:
 * whitespace trimming with an explicit whitespace set, ASCII case mapping,
 * and decimal rendering of a natural number.
 */
module Text {

  /** The characters JavaScript's `String.prototype.trim` removes (WhiteSpace and LineTerminator). */
  const JsWhitespace: set<char> := {
    '\t', '\n', '\U{000B}', '\U{000C}', '\r', ' ', '\U{00A0}', '\U{1680}',
    '\U{2000}', '\U{2001}', '\U{2002}', '\U{2003}', '\U{2004}', '\U{2005}',
    '\U{2006}', '\U{2007}', '\U{2008}', '\U{2009}', '\U{200A}',
    '\U{2028}', '\U{2029}', '\U{202F}', '\U{205F}', '\U{3000}', '\U{FEFF}'
  }

  /** The characters Python's `str.strip()` removes (those for which `str.isspace()` holds). */
  const PyWhitespace: set<char> := {
    '\t', '\n', '\U{000B}', '\U{000C}', '\r', '\U{001C}', '\U{001D}', '\U{001E}', '\U{001F}',
    ' ', '\U{0085}', '\U{00A0}', '\U{1680}',
    '\U{2000}', '\U{2001}', '\U{2002}', '\U{2003}', '\U{2004}', '\U{2005}',
    '\U{2006}', '\U{2007}', '\U{2008}', '\U{2009}', '\U{200A}',
    '\U{2028}', '\U{2029}', '\U{202F}', '\U{205F}', '\U{3000}'
  }

  /** Neither end of s is a character of ws (the empty string qualifies). */
  predicate Bordered(s: string, ws: set<char>)
  {
    s == [] || (s[0] !in ws && s[|s| - 1] !in ws)
  }

  /** The number of leading characters of s that belong to ws. */
  function LeadingCount(s: string, ws: set<char>): (n: nat)
    ensures n <= |s|
    ensures forall i :: 0 <= i < n ==> s[i] in ws
    ensures n == |s| || s[n] !in ws
  {
    if |s| > 0 && s[0] in ws then 1 + LeadingCount(s[1..], ws) else 0
  }

  /** The number of trailing characters of s that belong to ws. */
  function TrailingCount(s: string, ws: set<char>): (n: nat)
    ensures n <= |s|
    ensures forall i :: |s| - n <= i < |s| ==> s[i] in ws
    ensures n == |s| || s[|s| - 1 - n] !in ws
  {
    if |s| > 0 && s[|s| - 1] in ws then 1 + TrailingCount(s[..|s| - 1], ws) else 0
  }

  /**
   * Drops the characters of ws at both ends of s: the result is the slice of
   * s that starts after its leading run of ws characters, everything cut off
   * at either end belongs to ws, and the result itself neither starts nor
   * ends with a character of ws.
   */
  function Strip(s: string, ws: set<char>): (r: string)
    ensures Bordered(r, ws)
    ensures var lo := LeadingCount(s, ws);
      && lo + |r| <= |s|
      && r == s[lo..lo + |r|]
      && (forall i :: lo + |r| <= i < |s| ==> s[i] in ws)
  {
    var lo := LeadingCount(s, ws);
    var t := s[lo..];
    var n := TrailingCount(t, ws);
    var r := t[..|t| - n];
    assert forall i :: lo + |r| <= i < |s| ==> s[i] in ws by {
      forall i | lo + |r| <= i < |s| ensures s[i] in ws {
        assert s[i] == t[i - lo];
      }
    }
    r
  }

  /** Stripping a string that is already bordered changes nothing. */
  lemma StripBordered(s: string, ws: set<char>)
    requires Bordered(s, ws)
    ensures Strip(s, ws) == s
  {
    assert LeadingCount(s, ws) == 0;
    assert TrailingCount(s, ws) == 0;
  }

  /** Stripping is idempotent. */
  lemma StripIdempotent(s: string, ws: set<char>)
    ensures Strip(Strip(s, ws), ws) == Strip(s, ws)
  {
    StripBordered(Strip(s, ws), ws);
  }

  /** A string made only of characters of ws strips to the empty string. */
  lemma StripAllWhitespace(s: string, ws: set<char>)
    requires forall i :: 0 <= i < |s| ==> s[i] in ws
    ensures Strip(s, ws) == []
  {
  }

  /** Maps 'A'..'Z' to 'a'..'z' and leaves every other character alone. */
  function LowerChar(c: char): char
  {
    if 'A' <= c <= 'Z' then (c as int + 32) as char else c
  }

  /** Maps 'a'..'z' to 'A'..'Z' and leaves every other character alone. */
  function UpperChar(c: char): char
  {
    if 'a' <= c <= 'z' then (c as int - 32) as char else c
  }

  /** ASCII lower-casing, character by character. */
  function Lower(s: string): (r: string)
    ensures |r| == |s|
    ensures forall i :: 0 <= i < |s| ==> r[i] == LowerChar(s[i])
  {
    if s == [] then [] else [LowerChar(s[0])] + Lower(s[1..])
  }

  /** ASCII upper-casing, character by character. */
  function Upper(s: string): (r: string)
    ensures |r| == |s|
    ensures forall i :: 0 <= i < |s| ==> r[i] == UpperChar(s[i])
  {
    if s == [] then [] else [UpperChar(s[0])] + Upper(s[1..])
  }

  /** Replaces every occurrence of the character a in s by b. */
  function ReplaceChar(s: string, a: char, b: char): (r: string)
    ensures |r| == |s|
    ensures forall i :: 0 <= i < |s| ==> r[i] == (if s[i] == a then b else s[i])
  {
    if s == [] then [] else [if s[0] == a then b else s[0]] + ReplaceChar(s[1..], a, b)
  }

  /** Joins the parts with sep between consecutive parts, as Python's `sep.join(parts)`. */
  function Join(parts: seq<string>, sep: string): (r: string)
    ensures |parts| == 1 ==> r == parts[0]
    ensures |parts| > 1 ==> parts[0] + sep <= r
    ensures forall i :: 0 <= i < |parts| ==> |parts[i]| <= |r|
  {
    if parts == [] then ""
    else if |parts| == 1 then parts[0]
    else parts[0] + sep + Join(parts[1..], sep)
  }

  function DigitChar(d: nat): char
    requires d < 10
  {
    "0123456789"[d]
  }

  predicate IsDigit(c: char)
  {
    '0' <= c <= '9'
  }

  /** The value of a string of decimal digits. */
  function DigitsValue(s: string): nat
    requires forall i :: 0 <= i < |s| ==> IsDigit(s[i])
  {
    if s == [] then 0
    else
      assert IsDigit(s[|s| - 1]);
      10 * DigitsValue(s[..|s| - 1]) + (s[|s| - 1] as int - '0' as int)
  }

  /**
   * The decimal rendering of n, as JavaScript's template literal renders an
   * integer: digits only, no leading zero except for 0 itself, and reading
   * the digits back gives n.
   */
  function NatToString(n: nat): (r: string)
    ensures |r| >= 1
    ensures forall i :: 0 <= i < |r| ==> IsDigit(r[i])
    ensures |r| > 1 ==> r[0] != '0'
    ensures DigitsValue(r) == n
  {
    if n < 10 then [DigitChar(n)]
    else
      var p := NatToString(n / 10);
      var r := p + [DigitChar(n % 10)];
      assert r[..|r| - 1] == p;
      r
  }
}

=== FILE: wrappers.dfy ===
/** Optional values and results with an error, shared by both halves of the model. */
module Wrappers {

  /** A value that may be absent: JavaScript `null`/`undefined`, Python `None`, a NaN cell. */
  datatype Option<+T> = None | Some(value: T)

  /** The outcome of an operation that can fail with an error of type E. */
  datatype Result<+T, +E> = Success(value: T) | Failure(error: E)
}
